=== FILE: README.md ===
# DB2 query builder — a Dafny model

This project models the DB2 dialect of the Yii statement builder
(`QueryBuilder` in `src/QueryBuilder.php`). The class renders six
statements and conditions as SQL text.

- `truncateTable` renders `TRUNCATE TABLE <t> IMMEDIATE`.
- `alterColumn` renders `ALTER TABLE <t> ALTER COLUMN <c> SET DATA TYPE <type>`.
- `resetSequence` renders `ALTER TABLE "<t>" ALTER COLUMN "<seq>" RESTART WITH <n>`.
  It raises one of two invalid-parameter errors when the table is unknown or
  has no identity column.
- `checkIntegrity` renders `SET INTEGRITY FOR <t1>, <t2> … IMMEDIATE CHECKED|UNCHECKED;`.
  It gives the empty string when there is no table to act on.
- `buildCompositeInCondition` renders `(<cols>) <op> (select … from SYSIBM.SYSDUMMY1 UNION …)`.
  Every present value is bound under a generated name.
- `insert` renders `INSERT INTO <t> (<cols>) VALUES (<placeholders>)`.
  It splices `Expression` values in verbatim and binds the other values under
  generated names. It gives `DEFAULT`s when there are no columns.

Modules:

- `Values`: PHP values and `Option`.
- `Strings`: `implode`, PHP truthiness, and decimal rendering with its parser.
- `Params`: the parameter collector.
- `Db`: schemas, `Expression`, and the services the builders call.
- `QueryBuilder`: the builders and their properties.

## Collector and builder semantics

The collector `$params` is passed by reference in PHP. Here it is an ordered
sequence of bindings threaded through pure functions.

- `Params.Assign` is PHP's `$params[$k] = $v`. It overwrites an existing key
  in place and appends a new one.
- A generated name is `:qp` followed by the current count.
- A collector is **unclaimed** when no generated name with an ordinal at or
  above its count is already a key. Then every allocation appends a new entry.
- Any collector whose names do not start with `:qp` (`[':id' => 1]`, say) is
  unclaimed; one holding `:qp7` already need not be. Composite conditions
  keep a collector unclaimed. So do inserts whose `Expression`s bind no
  generated name, on a collector with distinct keys, as every PHP array has.
- From an unclaimed collector, the exact output text and the exact new
  bindings are proved for composite conditions and for literal-only inserts
  (and for an insert of a single `Expression`). For mixed inserts, the model
  proves that the names are fresh and what each column does to the collector.
  Name clashes are ruled out too.
- For any collector, every placeholder the builders emit for a value is bound,
  and no key is lost. For a composite condition this is stated branch by
  branch: branch i is built from row i's cells, whose present placeholders
  are keys of the final collector.

The services the builders call are arbitrary total functions, because their
code is not part of this model. They are gathered in one `Connection` value:

- the connection's quoting (`quoteTableName`, `quoteColumnName`);
- the column schema's `dbTypecast`;
- the builder's inherited `getColumnType`.

The results of the database reads the source performs are explicit inputs:

- the table schema, or its absence;
- the current `MAX` of the identity column;
- the list of table names from the catalog.

An empty list of rows in `buildCompositeInCondition` is modelled as written.
The result is `(<cols>) <operator> ()`, with no bindings.

## Model

| member | source | states |
|---|---|---|
| QueryBuilder.TruncateTable | src/QueryBuilder.php:47-50 | the statement is `TRUNCATE TABLE ` + the quoted table + ` IMMEDIATE`; reading it back between that prefix and suffix yields exactly the quoted table |
| QueryBuilder.AlterColumn | src/QueryBuilder.php:166-171 | the statement reads back as `ALTER TABLE ` + quoted table + ` ALTER COLUMN ` + quoted column + ` SET DATA TYPE ` + the builder's column type for the abstract type |
| QueryBuilder.ResetSequence | src/QueryBuilder.php:55-72 | an unknown table gives exactly the "table not found" error; a known table without its identity column among its columns gives exactly the "no sequence" error; otherwise the statement starts with the `ALTER TABLE "<t>" ALTER COLUMN "<seq>" RESTART WITH ` prefix and the rest reads back as the given value, or as current MAX + 1 when none is given |
| QueryBuilder.InvalidParam.Message | src/QueryBuilder.php:68-70 | the "table not found" text is `Table not found: ` followed by the table name, and the other is `There is no sequence associated with table '<t>'.`; the table name reads back from each, and a text starts with `Table not found: ` exactly when it is the first error |
| Strings.ParseIntToString | src/QueryBuilder.php:66 | the decimal text PHP concatenates for the restart value parses back to the same integer, negative values included |
| QueryBuilder.CheckIntegrityTable | src/QueryBuilder.php:85-121 | a PHP-truthy `table` gives exactly `SET INTEGRITY FOR <quoted table>[ ALL] IMMEDIATE <mode>;` whatever the catalog returned; otherwise the statement is empty exactly when the catalog returned no table |
| QueryBuilder.IntegrityTargets | src/QueryBuilder.php:115-118 | one target per table, in order: the quoted name, with ` ALL` appended exactly when checks are turned off |
| QueryBuilder.CheckIntegrity | src/QueryBuilder.php:111-121 | the statement is empty exactly when there is no table; otherwise it is `SET INTEGRITY FOR ` + the targets joined by `, ` + ` IMMEDIATE <mode>;` |
| QueryBuilder.CheckIntegrityMode | src/QueryBuilder.php:120-121 | a non-empty statement ends in ` IMMEDIATE CHECKED;` if and only if checks are turned on (`UNCHECKED` otherwise) |
| QueryBuilder.RowCells | src/QueryBuilder.php:180-189 | one cell per column; a cell is `NULL` exactly when the column is absent from the row or null; the collector grows by at most the number of present values |
| QueryBuilder.RowCellsBound | src/QueryBuilder.php:182-185 | on any collector, the cell of every present column names a key of the resulting parameters, and no earlier key is lost |
| QueryBuilder.RowCellsCollector | src/QueryBuilder.php:181-188 | from an unclaimed collector, the row's present values are appended in column order under `:qp<count>`, `:qp<count+1>`, … |
| QueryBuilder.RowTemplateAt | src/QueryBuilder.php:182-187 | cell i of a row (from a collector of n entries) is `NULL` for an absent column, and otherwise `:qp` followed by n plus the number of present columns before column i |
| QueryBuilder.RowCellsTemplate | src/QueryBuilder.php:179-190 | from an unclaimed collector, the cells the builder emits are exactly the collector-free template |
| QueryBuilder.Rows | src/QueryBuilder.php:179-191 | one branch per row, each of the form `select <cells> from SYSIBM.SYSDUMMY1`; on any collector it grows by at most the number of present values of all rows (that branch i belongs to row i is QueryBuilder.RowsAt) |
| QueryBuilder.RowsAt | src/QueryBuilder.php:179-190 | on any collector, branch i is `select` + row i's own cells + ` from SYSIBM.SYSDUMMY1`, the cells computed on the collector `Rows` leaves after the first i rows; every present cell of row i is a key of the final collector, and nothing row i bound is lost |
| QueryBuilder.RowsCollector | src/QueryBuilder.php:179-191 | from an unclaimed collector, all rows' present values are appended row after row, column by column, under consecutive generated names |
| QueryBuilder.RowsBranches | src/QueryBuilder.php:178-191 | from an unclaimed collector, the `select` branches are exactly the template branches, one per row in order |
| QueryBuilder.BranchesAt | src/QueryBuilder.php:190 | branch i is `select <cells> from SYSIBM.SYSDUMMY1` for row i, numbered after the values of all rows before it |
| QueryBuilder.QuoteColumns | src/QueryBuilder.php:192-196 | column i is passed through unchanged if it contains `(` and is quoted otherwise |
| QueryBuilder.BuildCompositeInCondition | src/QueryBuilder.php:176-199 | on any collector the condition is `(` + the quoted columns joined by `, ` + `) ` + the operator verbatim + ` (` … `)`, and the collector grows by at most the number of present values; with no rows it is exactly `(<cols>) <operator> ()` and the collector is unchanged |
| QueryBuilder.CompositeKeys | src/QueryBuilder.php:184 | the composite condition never drops a key of the collector it was given |
| QueryBuilder.CompositeInUnclaimed | src/QueryBuilder.php:176-199 | from an unclaimed collector: the full text, with one templated branch per row joined by ` UNION `, the collector equal to the old one plus exactly the present values under consecutive names, and the result unclaimed again |
| QueryBuilder.CompositeNameReuse | src/QueryBuilder.php:183-184 | for every collector that already holds the next generated name, two present values in one row both get that name, the count does not grow, and only the later value stays bound |
| QueryBuilder.BindColumn | src/QueryBuilder.php:216-225 | an `Expression` column's placeholder is its own text and adds at most as many entries as it binds; a literal's placeholder is the next generated name `:qp<count>` and adds at most one entry |
| QueryBuilder.BindColumnLookup | src/QueryBuilder.php:216-225 | an `Expression` splices its text and copies its bindings, where the last binding of a key wins; a literal binds the next generated name to the value, type-cast exactly when it is not an array and its column is in the schema; every other key keeps its value |
| QueryBuilder.InsertValues | src/QueryBuilder.php:214-226 | the loop yields exactly one name and one placeholder for every column given |
| QueryBuilder.InsertValuesShape | src/QueryBuilder.php:214-226 | name i is column i quoted, in input order; an `Expression` column's placeholder is its expression text |
| QueryBuilder.InsertValuesBound | src/QueryBuilder.php:222-224 | on any collector, every literal column's placeholder is a key of the resulting parameters, and no earlier key is lost |
| QueryBuilder.Insert | src/QueryBuilder.php:204-235 | the column list ` (` follows the table exactly when there are columns; with no columns the statement is `VALUES (DEFAULT, …)` with one `DEFAULT` per column of the schema, and the collector is unchanged |
| QueryBuilder.InsertValuesCollector | src/QueryBuilder.php:221-225 | from an unclaimed collector with only literal values, the (possibly type-cast) values are appended in column order under consecutive generated names |
| QueryBuilder.InsertValuesPlaceholders | src/QueryBuilder.php:222-223 | from an unclaimed collector with only literal values, column i gets the placeholder `:qp` followed by the count plus i |
| QueryBuilder.InsertLiterals | src/QueryBuilder.php:204-235 | a literal-only insert from an unclaimed collector is `INSERT INTO <t> (<quoted names>) VALUES (:qp<n>, :qp<n+1>, …)`, binds exactly the values, and leaves the collector unclaimed |
| QueryBuilder.InsertExpression | src/QueryBuilder.php:216-220 | a single `Expression` column gives `INSERT INTO <t> (<col>) VALUES (<expression>)`; every key of the expression carries its value, and every other key keeps its previous value |
| QueryBuilder.InsertValuesFresh | src/QueryBuilder.php:214-226 | for any mix of literals and expressions that bind no generated name, on an unclaimed collector with distinct keys: no literal placeholder was a key before, no two literals share one, keys stay distinct and the collector stays unclaimed |
| QueryBuilder.InsertFreshNames | src/QueryBuilder.php:204-235 | the same for a whole insert: the statement's literal placeholders are new and pairwise distinct, and the resulting collector has distinct keys and is unclaimed |
| QueryBuilder.SharedCollectorNoClash | src/QueryBuilder.php:176-235 | a composite condition followed by an insert (mixed values, expressions binding no generated name), sharing one unclaimed collector with distinct keys, leaves distinct keys, and no literal placeholder of the insert was bound by the condition |
| Params.Assign | src/QueryBuilder.php:184 | writing an existing key keeps the array's length; writing a new key appends it at the end |
| Params.LookupAssign | src/QueryBuilder.php:224 | after the write, the key holds the new value and every other key keeps its value |
| Params.AssignKeys | src/QueryBuilder.php:219 | the write adds exactly its key to the key set and renames no entry |
| Params.AssignKeepsDistinct | src/QueryBuilder.php:219 | the write keeps keys distinct |
| Params.Merge | src/QueryBuilder.php:218-220 | copying an expression's bindings adds at most as many entries as it has |
| Params.MergeKeys | src/QueryBuilder.php:218 | the copy adds exactly the expression's keys and renames no entry |
| Params.MergeKeepsDistinct | src/QueryBuilder.php:218-220 | the copy keeps keys distinct |
| Params.LookupMerge | src/QueryBuilder.php:218-220 | after the copy, a key of the expression holds its last value there, and any other key keeps its value |
| Params.LastLookupOfDistinct | src/QueryBuilder.php:218 | in an array with distinct keys, the last binding of a key is its only one |
| Params.PlaceholderParse | src/QueryBuilder.php:222 | a generated name starts with `:qp`, and its rest reads back as the count it was made from |
| Params.PlaceholderInjective | src/QueryBuilder.php:183 | two generated names are equal if and only if they were made from equal counts |
| Params.PlaceholderIsNotNull | src/QueryBuilder.php:183-187 | a generated name is never the literal `NULL` emitted for absent values |
| Params.CallerNamedUnclaimed | src/QueryBuilder.php:183 | a parameter array none of whose names starts with the generated prefix `:qp` (caller names such as `:id`) binds no generated name, and is unclaimed |
| Params.UnclaimedAllocate | src/QueryBuilder.php:183-184 | in an unclaimed collector the generated name is not yet a key, so by `Params.Assign` the write appends it; the collector stays unclaimed |
| Params.UnclaimedMerge | src/QueryBuilder.php:218-220 | copying bindings that use no generated name keeps a collector unclaimed |
| Params.UnclaimedExtend | src/QueryBuilder.php:183-184 | appending a run of allocations keeps a collector unclaimed, and keeps distinct keys distinct |

## Left out

- Database reads are inputs, not calls: `getTableSchema`, the `SELECT MAX` scalar query and the catalog query (`queryColumn`). The SQL text of those two queries (lines 61 and 89-101) and the `schema` argument of `checkIntegrity` only shape a query whose result is an input, so they are not modelled.
- ResetSequence: an explicit value is taken as an integer already. PHP's `(int)` cast of strings, floats and other values is not modelled, and neither is the float overflow of `MAX + 1` at the 64-bit limit.
- HasSequence: a `null` sequence name is treated as "no identity column". PHP would look up the key `""`, so a table with a column named `""` and no sequence differs.
- The `typeMap` table (lines 22-40) is read by the builder's inherited `getColumnType`, whose code is not part of this model. `getColumnType` is therefore an arbitrary function.
- The services the builders call are folded into one `Connection` value: the connection's quoting, the schema's quoting that `insert` uses, each column schema's `dbTypecast` and the builder's `getColumnType`. The two quoting routes are one function here, and `dbTypecast` is one function of the column schema and the value.
- `buildOrderByAndLimit` and `buildLimit` (lines 127-161) are commented out in the source.
- PHP arrays normalise integer-like string keys to integers. Collector keys and row keys are plain strings here.
- Rows are maps from column name to value. `ArrayAccess` objects as rows are not modelled, and floats and objects are absent from the value type.
- BuildCompositeInCondition: its own contract gives the frame, the growth bound and the no-rows case on any collector. The exact ` UNION `-joined branches and bindings are proved (CompositeInUnclaimed) only for an unclaimed collector. When the collector already holds a generated name at or above its count, names are reused (CompositeNameReuse), and the exact text is not stated.
- CompositeInUnclaimed: proved for unclaimed collectors only, for the reason above.
- Rows: on any collector, branch i is tied to row i (RowsAt), but its cells are stated through `RowCells` on the collector `Rows` leaves after the first i rows. The collector-free cell text (RowsBranches, RowTemplateAt) is proved only from an unclaimed collector, for the reason above.
- InsertLiterals: the exact text and bindings are proved for literal-only inserts into an unclaimed collector. A single expression column is covered by InsertExpression. For mixed inserts, InsertFreshNames gives fresh, distinct names, and BindColumnLookup and InsertValuesBound give each column's effect on any collector.
- SharedCollectorNoClash: proved when the shared collector starts unclaimed with distinct keys, and every `Expression` binds no generated name. An `Expression` binding `:qp<k>`, or a caller who already bound one, can clash with a later generated name.

=== FILE: db.dfy ===
/** What the builders borrow from the rest of the database layer: the schema
    snapshots the introspection layer reports, raw SQL expressions, and the
    services the builders call (quoting, type-casting, abstract column types),
    whose code is not part of this model and which are therefore taken as
    arbitrary total functions. */
module Db {
  import opened Values
  import opened Params

  /** One column of a table schema; only its identity matters here, its
      `dbTypecast` method is `Connection.dbTypecast` applied to it. */
  datatype ColumnSchema = ColumnSchema(name: string, dbType: string)

  /** A table as the introspection layer resolves it: its columns by name and
      the name of its identity column, if it declares one. */
  datatype TableSchema = TableSchema(
    name: string,
    columns: map<string, ColumnSchema>,
    sequenceName: Option<string>)

  /** A value given for an inserted column: either a literal to bind, or a
      raw SQL fragment (`yii\db\Expression`) with its own bindings. */
  datatype ColumnValue =
    | Literal(value: Value)
    | Expression(expression: string, params: Collector)

  /** The services the builders call, gathered in one value: the
      connection's (and the schema's) quoting, each column schema's
      `dbTypecast`, and the builder's own inherited `getColumnType`, which
      maps an abstract type through the builder's `typeMap`. */
  datatype Connection = Connection(
    quoteTableName: string -> string,
    quoteColumnName: string -> string,
    dbTypecast: (ColumnSchema, Value) -> Value,
    getColumnType: string -> string)
}

=== FILE: params.dfy ===
/** The parameter collector: the ordered PHP array `$params` that maps
    placeholder names to bound values, passed by reference into the builders.
    Here it is a sequence of bindings threaded through pure functions. */
module Params {
  import opened Values
  import opened Strings

  /** The base builder's `PARAM_PREFIX`. */
  const ParamPrefix: string := ":qp"

  /** The placeholder name `PARAM_PREFIX . n`. */
  function Placeholder(n: nat): string {
    ParamPrefix + NatToString(n)
  }

  /** A placeholder name is the prefix followed by the ordinal, which can be read back. */
  lemma PlaceholderParse(n: nat)
    ensures StartsWith(Placeholder(n), ParamPrefix)
    ensures ParseNat(Placeholder(n)[|ParamPrefix|..]) == Some(n)
  {
    StartsWithConcat(ParamPrefix, NatToString(n));
    assert Placeholder(n)[|ParamPrefix|..] == NatToString(n);
    ParseNatToString(n);
  }

  /** Distinct ordinals give distinct placeholder names. */
  lemma PlaceholderInjective(m: nat, n: nat)
    ensures Placeholder(m) == Placeholder(n) <==> m == n
  {
    PlaceholderParse(m);
    PlaceholderParse(n);
  }

  /** A generated placeholder is never the literal `NULL` the builders emit for absent values. */
  lemma PlaceholderIsNotNull(n: nat)
    ensures Placeholder(n) != "NULL"
  {
    assert Placeholder(n)[0] == ':';
  }

  datatype Binding = Binding(name: string, value: Value)

  /** An ordered PHP array from placeholder name to bound value. */
  type Collector = seq<Binding>

  function Keys(p: Collector): set<string> {
    set i | 0 <= i < |p| :: p[i].name
  }

  /** Every PHP array has this property; `Assign` preserves it. */
  predicate KeysDistinct(p: Collector) {
    forall i, j | 0 <= i < j < |p| :: p[i].name != p[j].name
  }

  lemma KeysCons(p: Collector)
    requires 0 < |p|
    ensures Keys(p) == {p[0].name} + Keys(p[1..])
  {
    forall k | k in Keys(p)
      ensures k in {p[0].name} + Keys(p[1..])
    {
      var i :| 0 <= i < |p| && p[i].name == k;
      if 0 < i {
        assert p[1..][i - 1].name == k;
      }
    }
    forall k | k in Keys(p[1..])
      ensures k in Keys(p)
    {
      var i :| 0 <= i < |p[1..]| && p[1..][i].name == k;
      assert p[i + 1].name == k;
    }
  }

  lemma KeysSnoc(p: Collector)
    requires 0 < |p|
    ensures Keys(p) == Keys(p[..|p| - 1]) + {p[|p| - 1].name}
  {
    var q := p[..|p| - 1];
    forall k | k in Keys(q)
      ensures k in Keys(p)
    {
      var i :| 0 <= i < |q| && q[i].name == k;
      assert p[i].name == k;
    }
  }

  /** PHP `$params[$k]`: the value bound to `k`, if any. */
  function Lookup(p: Collector, k: string): (r: Option<Value>)
    ensures r.Some? <==> k in Keys(p)
    decreases |p|
  {
    if |p| == 0 then None
    else
      KeysCons(p);
      if p[0].name == k then Some(p[0].value) else Lookup(p[1..], k)
  }

  /** PHP `$params[$k] = $v`: an existing key keeps its position and takes the
      new value; a new key is appended. */
  function Assign(p: Collector, k: string, v: Value): (r: Collector)
    ensures k in Keys(p) ==> |r| == |p|
    ensures k !in Keys(p) ==> r == p + [Binding(k, v)]
    decreases |p|
  {
    if |p| == 0 then
      [Binding(k, v)]
    else
      KeysCons(p);
      if p[0].name == k then
        [Binding(k, v)] + p[1..]
      else
        [p[0]] + Assign(p[1..], k, v)
  }

  /** The write adds `k` to the keys and renames no entry. */
  lemma {:induction false} AssignKeys(p: Collector, k: string, v: Value)
    ensures Keys(Assign(p, k, v)) == Keys(p) + {k}
    ensures forall i | 0 <= i < |p| :: Assign(p, k, v)[i].name == p[i].name
    decreases |p|
  {
    var r := Assign(p, k, v);
    if |p| == 0 {
      assert r[0].name == k;
    } else {
      KeysCons(p);
      KeysCons(r);
      if p[0].name == k {
        assert r[1..] == p[1..];
      } else {
        assert r[1..] == Assign(p[1..], k, v);
        AssignKeys(p[1..], k, v);
      }
    }
  }

  /** After `$params[$k] = $v`, `k` is bound to `v` and every other key keeps its value. */
  lemma {:induction false} LookupAssign(p: Collector, k: string, v: Value, j: string)
    ensures Lookup(Assign(p, k, v), j) == (if j == k then Some(v) else Lookup(p, j))
    decreases |p|
  {
    if |p| > 0 && p[0].name != k {
      var r := Assign(p, k, v);
      assert r[1..] == Assign(p[1..], k, v);
      LookupAssign(p[1..], k, v, j);
    } else if |p| > 0 {
      assert Assign(p, k, v)[1..] == p[1..];
    }
  }

  lemma AssignKeepsDistinct(p: Collector, k: string, v: Value)
    requires KeysDistinct(p)
    ensures KeysDistinct(Assign(p, k, v))
  {
    var r := Assign(p, k, v);
    AssignKeys(p, k, v);
    if k !in Keys(p) {
      forall i, j | 0 <= i < j < |r|
        ensures r[i].name != r[j].name
      {
        if j == |p| {
          assert r[i].name in Keys(p);
        }
      }
    }
  }

  /** The value the LAST binding of `k` in `ps` carries: the one that survives
      when `ps` is copied entry by entry into another array. */
  function LastLookup(ps: Collector, k: string): (r: Option<Value>)
    ensures r.Some? <==> k in Keys(ps)
    decreases |ps|
  {
    if |ps| == 0 then None
    else
      KeysSnoc(ps);
      if ps[|ps| - 1].name == k then Some(ps[|ps| - 1].value) else LastLookup(ps[..|ps| - 1], k)
  }

  /** In a PHP array, where keys are distinct, the last binding of a key is its only one. */
  lemma {:induction false} LastLookupOfDistinct(ps: Collector, k: string)
    requires KeysDistinct(ps)
    ensures LastLookup(ps, k) == Lookup(ps, k)
    decreases |ps|
  {
    if |ps| > 0 {
      KeysCons(ps);
      KeysSnoc(ps);
      var q := ps[..|ps| - 1];
      assert KeysDistinct(q);
      LastLookupOfDistinct(q, k);
      if ps[|ps| - 1].name == k {
        assert k !in Keys(q);
        LookupLast(ps, k);
      } else {
        LookupPrefix(ps, k);
      }
    }
  }

  lemma {:induction false} LookupLast(ps: Collector, k: string)
    requires 0 < |ps| && ps[|ps| - 1].name == k && k !in Keys(ps[..|ps| - 1])
    ensures Lookup(ps, k) == Some(ps[|ps| - 1].value)
    decreases |ps|
  {
    if ps[0].name != k {
      assert 1 < |ps|;
      var t := ps[1..];
      assert t[..|t| - 1] == ps[..|ps| - 1][1..];
      KeysCons(ps[..|ps| - 1]);
      LookupLast(t, k);
    }
  }

  lemma {:induction false} LookupPrefix(ps: Collector, k: string)
    requires 0 < |ps| && ps[|ps| - 1].name != k
    ensures Lookup(ps, k) == Lookup(ps[..|ps| - 1], k)
    decreases |ps|
  {
    if ps[0].name != k && 1 < |ps| {
      var t := ps[1..];
      assert t[..|t| - 1] == ps[..|ps| - 1][1..];
      LookupPrefix(t, k);
    }
  }

  /** `foreach ($ps as $n => $v) { $params[$n] = $v; }`: copies every binding
      of `ps`, in order, into `p`. */
  function Merge(p: Collector, ps: Collector): (r: Collector)
    ensures |p| <= |r| <= |p| + |ps|
    decreases |ps|
  {
    if |ps| == 0 then p
    else
      KeysSnoc(ps);
      var last := ps[|ps| - 1];
      Assign(Merge(p, ps[..|ps| - 1]), last.name, last.value)
  }

  /** The copy adds exactly the keys of `ps` and renames no entry of `p`. */
  lemma {:induction false} MergeKeys(p: Collector, ps: Collector)
    ensures Keys(Merge(p, ps)) == Keys(p) + Keys(ps)
    ensures forall i | 0 <= i < |p| :: Merge(p, ps)[i].name == p[i].name
    decreases |ps|
  {
    if |ps| > 0 {
      KeysSnoc(ps);
      var last := ps[|ps| - 1];
      var q := Merge(p, ps[..|ps| - 1]);
      MergeKeys(p, ps[..|ps| - 1]);
      AssignKeys(q, last.name, last.value);
    }
  }

  /** After the copy, a key of `ps` carries its last value there; any other key keeps its value. */
  lemma {:induction false} LookupMerge(p: Collector, ps: Collector, k: string)
    ensures Lookup(Merge(p, ps), k) == (if k in Keys(ps) then LastLookup(ps, k) else Lookup(p, k))
    decreases |ps|
  {
    if |ps| > 0 {
      KeysSnoc(ps);
      var last := ps[|ps| - 1];
      LookupMerge(p, ps[..|ps| - 1], k);
      LookupAssign(Merge(p, ps[..|ps| - 1]), last.name, last.value, k);
    }
  }

  /** The next generated name: `PARAM_PREFIX . count($params)`. */
  function Fresh(p: Collector): string {
    Placeholder(|p|)
  }

  /** No name the builders would generate from the current count on is a key
      yet, so every allocation `$params[PARAM_PREFIX . count($params)] = $v`
      appends a new entry. A collector holding only caller-named parameters
      has this property, and allocating keeps it. */
  ghost predicate Unclaimed(p: Collector) {
    forall m: nat | |p| <= m :: NameUnbound(p, m)
  }

  /** The generated name with ordinal `m` is not a key of `p`. */
  predicate NameUnbound(p: Collector, m: nat) {
    Placeholder(m) !in Keys(p)
  }

  /** A parameter array (an expression's bindings) that binds no generated name. */
  ghost predicate NoGeneratedKeys(ps: Collector) {
    forall m: nat :: NameUnbound(ps, m)
  }

  /** A parameter array whose names do not start with `PARAM_PREFIX` (caller
      names such as `[':id' => 1]`) binds no generated name, and so leaves a
      collector unclaimed. */
  lemma CallerNamedUnclaimed(p: Collector)
    requires forall i | 0 <= i < |p| :: !StartsWith(p[i].name, ParamPrefix)
    ensures NoGeneratedKeys(p) && Unclaimed(p)
  {
  }

  /** Allocating the next name in an unclaimed collector binds a new key, so
      the write appends, and the collector stays unclaimed. */
  lemma {:induction false} UnclaimedAllocate(p: Collector, v: Value)
    requires Unclaimed(p)
    ensures Fresh(p) !in Keys(p)
    ensures Unclaimed(Assign(p, Fresh(p), v))
  {
    var q := Assign(p, Fresh(p), v);
    assert NameUnbound(p, |p|);
    AssignKeys(p, Fresh(p), v);
    forall m: nat | |q| <= m
      ensures NameUnbound(q, m)
    {
      assert NameUnbound(p, m);
      PlaceholderInjective(m, |p|);
    }
  }

  /** Copying bindings that use no generated name keeps a collector unclaimed. */
  lemma UnclaimedMerge(p: Collector, ps: Collector)
    requires Unclaimed(p) && NoGeneratedKeys(ps)
    ensures Unclaimed(Merge(p, ps))
  {
    MergeKeys(p, ps);
    forall m: nat | |Merge(p, ps)| <= m
      ensures NameUnbound(Merge(p, ps), m)
    {
      assert NameUnbound(p, m) && NameUnbound(ps, m);
    }
  }

  /** Copying bindings keeps the keys distinct. */
  lemma {:induction false} MergeKeepsDistinct(p: Collector, ps: Collector)
    requires KeysDistinct(p)
    ensures KeysDistinct(Merge(p, ps))
    decreases |ps|
  {
    if |ps| > 0 {
      var last := ps[|ps| - 1];
      MergeKeepsDistinct(p, ps[..|ps| - 1]);
      AssignKeepsDistinct(Merge(p, ps[..|ps| - 1]), last.name, last.value);
    }
  }

  /** The names of `count` consecutive allocations starting at ordinal `start`. */
  function Placeholders(start: nat, count: nat): (names: seq<string>)
    ensures |names| == count
    decreases count
  {
    if count == 0 then [] else [Placeholder(start)] + Placeholders(start + 1, count - 1)
  }

  lemma {:induction false} PlaceholdersAt(start: nat, count: nat, i: nat)
    requires i < count
    ensures Placeholders(start, count)[i] == Placeholder(start + i)
    decreases count
  {
    if 0 < i {
      PlaceholdersAt(start + 1, count - 1, i - 1);
    }
  }

  /** The bindings a run of allocations starting at ordinal `n` produces for `vs`. */
  function Bindings(n: nat, vs: seq<Value>): (bs: Collector)
    ensures |bs| == |vs|
    decreases |vs|
  {
    if |vs| == 0 then [] else [Binding(Placeholder(n), vs[0])] + Bindings(n + 1, vs[1..])
  }

  lemma BindingsCons(n: nat, v: Value, vs: seq<Value>)
    ensures Bindings(n, [v] + vs) == [Binding(Placeholder(n), v)] + Bindings(n + 1, vs)
  {
    assert ([v] + vs)[1..] == vs;
  }

  lemma {:induction false} BindingsAppend(n: nat, vs: seq<Value>, ws: seq<Value>)
    ensures Bindings(n, vs + ws) == Bindings(n, vs) + Bindings(n + |vs|, ws)
    decreases |vs|
  {
    if |vs| == 0 {
      assert vs + ws == ws;
    } else {
      assert (vs + ws)[0] == vs[0];
      assert (vs + ws)[1..] == vs[1..] + ws;
      BindingsAppend(n + 1, vs[1..], ws);
      var b := [Binding(Placeholder(n), vs[0])];
      assert Bindings(n, vs + ws) == b + Bindings(n + 1, vs[1..] + ws);
      assert Bindings(n, vs) == b + Bindings(n + 1, vs[1..]);
    }
  }

  lemma AppendAssoc<T>(a: seq<T>, b: seq<T>, c: seq<T>)
    ensures (a + b) + c == a + (b + c)
  {
  }

  /** Appending a run of allocations to an unclaimed collector keeps it
      unclaimed, and keeps distinct keys distinct. */
  lemma {:induction false} UnclaimedExtend(p: Collector, vs: seq<Value>)
    requires Unclaimed(p)
    ensures Unclaimed(p + Bindings(|p|, vs))
    ensures KeysDistinct(p) ==> KeysDistinct(p + Bindings(|p|, vs))
    decreases |vs|
  {
    if |vs| == 0 {
      assert p + Bindings(|p|, vs) == p;
    } else {
      var b := [Binding(Placeholder(|p|), vs[0])];
      var q := p + b;
      assert q == Assign(p, Fresh(p), vs[0]) && Unclaimed(q) by {
        UnclaimedAllocate(p, vs[0]);
      }
      if KeysDistinct(p) {
        AssignKeepsDistinct(p, Fresh(p), vs[0]);
      }
      UnclaimedExtend(q, vs[1..]);
      assert q + Bindings(|q|, vs[1..]) == p + Bindings(|p|, vs) by {
        assert Bindings(|p|, vs) == b + Bindings(|p| + 1, vs[1..]);
        AppendAssoc(p, b, Bindings(|p| + 1, vs[1..]));
      }
    }
  }
}

=== FILE: query_builder.dfy ===
/** The DB2 dialect of the statement builder (`QueryBuilder` in
    src/QueryBuilder.php). Every builder is a pure function of its inputs;
    the results of database reads the source performs are explicit inputs,
    and the parameter collector the source takes by reference is threaded
    through: the builders that bind values return `(sql, collector)`. */
module QueryBuilder {
  import opened Values
  import opened Strings
  import opened Params
  import opened Db

  // ===== truncateTable =====

  /** `TRUNCATE TABLE <quoted table> IMMEDIATE`. */
  function TruncateTable(db: Connection, table: string): (sql: string)
    ensures StripAround(sql, "TRUNCATE TABLE ", " IMMEDIATE") == Some(db.quoteTableName(table))
  {
    StripAroundConcat("TRUNCATE TABLE ", db.quoteTableName(table), " IMMEDIATE");
    "TRUNCATE TABLE " + db.quoteTableName(table) + " IMMEDIATE"
  }

  // ===== alterColumn =====

  /** `ALTER TABLE <table> ALTER COLUMN <column> SET DATA TYPE <type>`, with the
      type resolved by the builder's inherited `getColumnType`. */
  function AlterColumn(db: Connection, table: string, column: string, columnType: string): (sql: string)
    ensures StripAround(sql, "ALTER TABLE ", " SET DATA TYPE " + db.getColumnType(columnType))
         == Some(db.quoteTableName(table) + " ALTER COLUMN " + db.quoteColumnName(column))
  {
    var target := db.quoteTableName(table) + " ALTER COLUMN " + db.quoteColumnName(column);
    var suffix := " SET DATA TYPE " + db.getColumnType(columnType);
    StripAroundConcat("ALTER TABLE ", target, suffix);
    "ALTER TABLE " + target + suffix
  }

  // ===== resetSequence =====

  /** The two `InvalidParamException`s `resetSequence` throws. */
  datatype InvalidParam =
    | TableNotFound(table: string)
    | NoSequence(table: string)
  {
    /** The exception text: the table name reads back from between the fixed
        parts, and the two texts are told apart by their opening words. */
    function Message(): (m: string)
      ensures StartsWith(m, "Table not found: ") <==> TableNotFound?
      ensures TableNotFound? ==> StripAround(m, "Table not found: ", "") == Some(table)
      ensures NoSequence? ==>
        StripAround(m, "There is no sequence associated with table '", "'.") == Some(table)
    {
      match this
      case TableNotFound(t) =>
        var m := "Table not found: " + t;
        StripAroundConcat("Table not found: ", t, "");
        assert m + "" == m;
        m
      case NoSequence(t) =>
        var head := "There is no sequence associated with table '";
        var m := head + t + "'.";
        StripAroundConcat(head, t, "'.");
        assert m[1] == head[1] == 'h';
        m
    }
  }

  datatype Result<+T> = Ok(value: T) | Err(error: InvalidParam)

  /** `isset($table->columns[$table->sequenceName])`. */
  predicate HasSequence(t: TableSchema) {
    t.sequenceName.Some? && t.sequenceName.value in t.columns
  }

  /** Everything of the reset statement up to the restart value. */
  function RestartPrefix(tableName: string, sequenceName: string): string {
    "ALTER TABLE \"" + tableName + "\" ALTER COLUMN \"" + sequenceName + "\" RESTART WITH "
  }

  /** `resetSequence($tableName, $value)`. `table` is what the schema lookup
      returned for `tableName`; `currentMax` is what `SELECT MAX(<sequence>)`
      returned, with SQL NULL (an empty table) given as 0, which is what PHP
      makes of `null + 1`. The query is only issued when `value` is absent. */
  function ResetSequence(tableName: string, table: Option<TableSchema>, value: Option<int>, currentMax: int)
    : (r: Result<string>)
    ensures r == Err(TableNotFound(tableName)) <==> table.None?
    ensures r == Err(NoSequence(tableName)) <==> table.Some? && !HasSequence(table.value)
    ensures r.Ok? <==> table.Some? && HasSequence(table.value)
    ensures r.Ok? ==>
      var prefix := RestartPrefix(tableName, table.value.sequenceName.value);
      && StartsWith(r.value, prefix)
      && ParseInt(r.value[|prefix|..]) == Some(if value.Some? then value.value else currentMax + 1)
  {
    if table.Some? && HasSequence(table.value) then
      var restart := if value.Some? then value.value else currentMax + 1;
      var prefix := RestartPrefix(tableName, table.value.sequenceName.value);
      var sql := prefix + IntToString(restart);
      assert sql[..|prefix|] == prefix;
      assert sql[|prefix|..] == IntToString(restart);
      ParseIntToString(restart);
      Ok(sql)
    else if table.None? then
      Err(TableNotFound(tableName))
    else
      Err(NoSequence(tableName))
  }

  // ===== checkIntegrity =====

  /** The tables `checkIntegrity` operates on: the `table` argument alone when
      it is truthy in PHP, otherwise the tables the catalog query returned. */
  function IntegrityTables(table: string, catalogTables: seq<string>): seq<string> {
    if IsTruthy(table) then [table] else catalogTables
  }

  /** Each table quoted, with ` ALL` appended when checks are turned off. */
  function IntegrityTargets(db: Connection, check: bool, names: seq<string>): (targets: seq<string>)
    ensures |targets| == |names|
    ensures forall i | 0 <= i < |names| ::
      targets[i] == db.quoteTableName(names[i]) + (if check then "" else " ALL")
    decreases |names|
  {
    if |names| == 0 then []
    else [db.quoteTableName(names[0]) + (if check then "" else " ALL")] + IntegrityTargets(db, check, names[1..])
  }

  function IntegrityMode(check: bool): string {
    if check then "CHECKED" else "UNCHECKED"
  }

  /** `checkIntegrity($check, $schema, $table)`. `catalogTables` is what the
      catalog query (filtered by `$schema`, and by pending status when
      `check` holds) returned; it is ignored when `table` is truthy. */
  function CheckIntegrity(db: Connection, check: bool, table: string, catalogTables: seq<string>): (sql: string)
    ensures sql == "" <==> |IntegrityTables(table, catalogTables)| == 0
    ensures sql != "" ==>
      StripAround(sql, "SET INTEGRITY FOR ", " IMMEDIATE " + IntegrityMode(check) + ";")
        == Some(Join(", ", IntegrityTargets(db, check, IntegrityTables(table, catalogTables))))
  {
    var names := IntegrityTables(table, catalogTables);
    if |names| == 0 then ""
    else
      var targets := Join(", ", IntegrityTargets(db, check, names));
      var suffix := " IMMEDIATE " + IntegrityMode(check) + ";";
      StripAroundConcat("SET INTEGRITY FOR ", targets, suffix);
      "SET INTEGRITY FOR " + targets + suffix
  }

  /** A non-empty statement ends in ` IMMEDIATE CHECKED;` exactly when checks are turned on. */
  lemma CheckIntegrityMode(db: Connection, check: bool, table: string, catalogTables: seq<string>)
    requires |IntegrityTables(table, catalogTables)| > 0
    ensures EndsWith(CheckIntegrity(db, check, table, catalogTables), " IMMEDIATE CHECKED;") <==> check
  {
    var sql := CheckIntegrity(db, check, table, catalogTables);
    var suffix := " IMMEDIATE " + IntegrityMode(check) + ";";
    assert EndsWith(sql, suffix);
    if !check {
      assert sql[|sql| - 19] == suffix[|suffix| - 19] == 'M';
    }
  }

  /** A truthy `table` yields the statement for exactly that table, whatever
      the catalog returned; otherwise the statement is empty exactly when the
      catalog returned no table. */
  lemma CheckIntegrityTable(db: Connection, check: bool, table: string, catalogTables: seq<string>)
    ensures IsTruthy(table) ==>
      CheckIntegrity(db, check, table, catalogTables)
        == "SET INTEGRITY FOR " + db.quoteTableName(table) + (if check then "" else " ALL")
           + " IMMEDIATE " + IntegrityMode(check) + ";"
    ensures !IsTruthy(table) ==> (CheckIntegrity(db, check, table, catalogTables) == "" <==> |catalogTables| == 0)
  {
  }

  // ===== buildCompositeInCondition =====

  type Row = map<string, Value>

  /** PHP `isset($row[$column])`: present and not null. */
  predicate IsSet(row: Row, column: string) {
    column in row && row[column] != Null
  }

  /** The values of `row` the cells for `columns` bind, in column order. */
  function SetValues(row: Row, columns: seq<string>): seq<Value>
    decreases |columns|
  {
    if |columns| == 0 then []
    else (if IsSet(row, columns[0]) then [row[columns[0]]] else []) + SetValues(row, columns[1..])
  }

  /** The values all rows bind, row after row. */
  function AllSetValues(columns: seq<string>, values: seq<Row>): seq<Value>
    decreases |values|
  {
    if |values| == 0 then [] else SetValues(values[0], columns) + AllSetValues(columns, values[1..])
  }

  /** The cells of one row: the value of each present column bound under the
      next generated name, `NULL` for a missing or null one. */
  function RowCells(columns: seq<string>, row: Row, p: Collector): (r: (seq<string>, Collector))
    ensures |r.0| == |columns|
    ensures forall i | 0 <= i < |columns| :: r.0[i] == "NULL" <==> !IsSet(row, columns[i])
    ensures |p| <= |r.1| <= |p| + |SetValues(row, columns)|
    decreases |columns|
  {
    if |columns| == 0 then ([], p)
    else if IsSet(row, columns[0]) then
      var name := Fresh(p);
      PlaceholderIsNotNull(|p|);
      var rest := RowCells(columns[1..], row, Assign(p, name, row[columns[0]]));
      ([name] + rest.0, rest.1)
    else
      var rest := RowCells(columns[1..], row, p);
      (["NULL"] + rest.0, rest.1)
  }

  /** One branch of the union. */
  function SelectRow(cells: seq<string>): string {
    "select " + Join(", ", cells) + " from SYSIBM.SYSDUMMY1"
  }

  /** One `select` branch per row, in order. */
  function Rows(columns: seq<string>, values: seq<Row>, p: Collector): (r: (seq<string>, Collector))
    ensures |r.0| == |values|
    ensures forall i | 0 <= i < |values| :: StripAround(r.0[i], "select ", " from SYSIBM.SYSDUMMY1").Some?
    ensures |p| <= |r.1| <= |p| + |AllSetValues(columns, values)|
    decreases |values|
  {
    if |values| == 0 then ([], p)
    else
      var first := RowCells(columns, values[0], p);
      var rest := Rows(columns, values[1..], first.1);
      StripAroundConcat("select ", Join(", ", first.0), " from SYSIBM.SYSDUMMY1");
      ([SelectRow(first.0)] + rest.0, rest.1)
  }

  /** Each column is quoted unless it contains `(` (an expression, not a name). */
  function QuoteColumns(db: Connection, columns: seq<string>): (quoted: seq<string>)
    ensures |quoted| == |columns|
    ensures forall i | 0 <= i < |columns| ::
      quoted[i] == (if '(' in columns[i] then columns[i] else db.quoteColumnName(columns[i]))
    decreases |columns|
  {
    if |columns| == 0 then []
    else
      [if '(' in columns[0] then columns[0] else db.quoteColumnName(columns[0])]
        + QuoteColumns(db, columns[1..])
  }

  /** `buildCompositeInCondition($operator, $columns, $values, $params)`:
      `(<columns>) <operator> (select … UNION select …)`. */
  function BuildCompositeInCondition(db: Connection, operator: string, columns: seq<string>, values: seq<Row>, p: Collector)
    : (r: (string, Collector))
    ensures StripAround(r.0, "(" + Join(", ", QuoteColumns(db, columns)) + ") " + operator + " (", ")").Some?
    ensures |p| <= |r.1| <= |p| + |AllSetValues(columns, values)|
    ensures |values| == 0 ==> r == ("(" + Join(", ", QuoteColumns(db, columns)) + ") " + operator + " ()", p)
  {
    var rows := Rows(columns, values, p);
    var head := "(" + Join(", ", QuoteColumns(db, columns)) + ") " + operator + " (";
    StripAroundConcat(head, Join(" UNION ", rows.0), ")");
    assert |values| == 0 ==>
      head + Join(" UNION ", rows.0) + ")" == "(" + Join(", ", QuoteColumns(db, columns)) + ") " + operator + " ()";
    (head + Join(" UNION ", rows.0) + ")", rows.1)
  }

  /** One step of `RowCells`: the first column, then the rest on the updated collector. */
  lemma RowCellsUnfold(columns: seq<string>, row: Row, p: Collector)
    requires 0 < |columns|
    ensures IsSet(row, columns[0]) ==>
      var q := Assign(p, Fresh(p), row[columns[0]]);
      RowCells(columns, row, p) == ([Fresh(p)] + RowCells(columns[1..], row, q).0, RowCells(columns[1..], row, q).1)
    ensures !IsSet(row, columns[0]) ==>
      RowCells(columns, row, p) == (["NULL"] + RowCells(columns[1..], row, p).0, RowCells(columns[1..], row, p).1)
  {
  }

  lemma SetValuesUnfold(row: Row, columns: seq<string>)
    requires 0 < |columns|
    ensures IsSet(row, columns[0]) ==> SetValues(row, columns) == [row[columns[0]]] + SetValues(row, columns[1..])
    ensures !IsSet(row, columns[0]) ==> SetValues(row, columns) == SetValues(row, columns[1..])
  {
  }

  /** On an unclaimed collector a row's present values are appended, in
      column order, under consecutive fresh names. */
  lemma {:induction false} RowCellsCollector(columns: seq<string>, row: Row, p: Collector)
    requires Unclaimed(p)
    ensures RowCells(columns, row, p).1 == p + Bindings(|p|, SetValues(row, columns))
    decreases |columns|
  {
    if |columns| == 0 {
      assert p + Bindings(|p|, []) == p;
    } else {
      RowCellsUnfold(columns, row, p);
      SetValuesUnfold(row, columns);
      var rest := SetValues(row, columns[1..]);
      if IsSet(row, columns[0]) {
        var v := row[columns[0]];
        UnclaimedAllocate(p, v);
        RowCellsCollector(columns[1..], row, Assign(p, Fresh(p), v));
        BindingsCons(|p|, v, rest);
        AppendAssoc(p, [Binding(Fresh(p), v)], Bindings(|p| + 1, rest));
      } else {
        RowCellsCollector(columns[1..], row, p);
      }
    }
  }

  /** On any collector, every cell of a present column names a bound
      parameter, and no key is dropped. */
  lemma {:induction false} RowCellsBound(columns: seq<string>, row: Row, p: Collector)
    ensures Keys(p) <= Keys(RowCells(columns, row, p).1)
    ensures forall i | 0 <= i < |columns| && IsSet(row, columns[i]) ::
      RowCells(columns, row, p).0[i] in Keys(RowCells(columns, row, p).1)
    decreases |columns|
  {
    if |columns| > 0 {
      var r := RowCells(columns, row, p);
      var q := if IsSet(row, columns[0]) then Assign(p, Fresh(p), row[columns[0]]) else p;
      var rest := RowCells(columns[1..], row, q);
      assert r.0 == [r.0[0]] + rest.0 && r.1 == rest.1 && Keys(p) <= Keys(q)
          && (IsSet(row, columns[0]) ==> r.0[0] in Keys(q)) by {
        RowCellsUnfold(columns, row, p);
        AssignKeys(p, Fresh(p), if IsSet(row, columns[0]) then row[columns[0]] else Null);
      }
      RowCellsBound(columns[1..], row, q);
      forall i | 0 < i < |columns| && IsSet(row, columns[i])
        ensures r.0[i] in Keys(r.1)
      {
        assert columns[1..][i - 1] == columns[i];
        assert r.0[i] == rest.0[i - 1];
      }
    }
  }

  /** The cells a row yields on an unclaimed collector holding `n` entries,
      computed without the collector: each present value takes the next ordinal. */
  function RowTemplate(columns: seq<string>, row: Row, n: nat): (cells: seq<string>)
    ensures |cells| == |columns|
    decreases |columns|
  {
    if |columns| == 0 then []
    else if IsSet(row, columns[0]) then [Placeholder(n)] + RowTemplate(columns[1..], row, n + 1)
    else ["NULL"] + RowTemplate(columns[1..], row, n)
  }

  lemma SetValuesPrefix(row: Row, columns: seq<string>, i: nat)
    requires 0 < i <= |columns|
    ensures |SetValues(row, columns[..i])|
         == (if IsSet(row, columns[0]) then 1 else 0) + |SetValues(row, columns[1..][..i - 1])|
  {
    assert columns[..i][1..] == columns[1..][..i - 1];
    SetValuesUnfold(row, columns[..i]);
  }

  /** Cell i of a row: `NULL` for an absent column, otherwise the name with
      ordinal n plus the number of present columns before it. */
  lemma {:induction false} RowTemplateAt(columns: seq<string>, row: Row, n: nat, i: nat)
    requires i < |columns|
    ensures RowTemplate(columns, row, n)[i]
         == if IsSet(row, columns[i]) then Placeholder(n + |SetValues(row, columns[..i])|) else "NULL"
    decreases |columns|
  {
    if i == 0 {
      assert columns[..0] == [];
    } else {
      var k := if IsSet(row, columns[0]) then 1 else 0;
      var before := |SetValues(row, columns[1..][..i - 1])|;
      assert RowTemplate(columns, row, n)[i] == RowTemplate(columns[1..], row, n + k)[i - 1];
      assert RowTemplate(columns[1..], row, n + k)[i - 1]
          == if IsSet(row, columns[i]) then Placeholder(n + k + before) else "NULL" by {
        RowTemplateAt(columns[1..], row, n + k, i - 1);
        assert columns[1..][i - 1] == columns[i];
      }
      assert |SetValues(row, columns[..i])| == k + before by {
        SetValuesPrefix(row, columns, i);
      }
    }
  }

  /** On an unclaimed collector a row's cells follow `RowTemplate`. */
  lemma {:induction false} RowCellsTemplate(columns: seq<string>, row: Row, p: Collector)
    requires Unclaimed(p)
    ensures RowCells(columns, row, p).0 == RowTemplate(columns, row, |p|)
    decreases |columns|
  {
    if |columns| > 0 {
      RowCellsUnfold(columns, row, p);
      if IsSet(row, columns[0]) {
        UnclaimedAllocate(p, row[columns[0]]);
        RowCellsTemplate(columns[1..], row, Assign(p, Fresh(p), row[columns[0]]));
      } else {
        RowCellsTemplate(columns[1..], row, p);
      }
    }
  }

  /** One step of `Rows`: the first row, then the rest on the updated collector. */
  lemma RowsUnfold(columns: seq<string>, values: seq<Row>, p: Collector)
    requires 0 < |values|
    ensures var first := RowCells(columns, values[0], p);
      var rest := Rows(columns, values[1..], first.1);
      Rows(columns, values, p) == ([SelectRow(first.0)] + rest.0, rest.1)
  {
  }

  lemma AllSetValuesUnfold(columns: seq<string>, values: seq<Row>)
    requires 0 < |values|
    ensures AllSetValues(columns, values) == SetValues(values[0], columns) + AllSetValues(columns, values[1..])
  {
  }

  /** One row on an unclaimed collector: its present values are appended
      under consecutive fresh names, leaving the unclaimed collector `q`. */
  lemma {:induction false} RowsStep(columns: seq<string>, values: seq<Row>, p: Collector) returns (q: Collector)
    requires Unclaimed(p) && 0 < |values|
    ensures q == p + Bindings(|p|, SetValues(values[0], columns)) && Unclaimed(q)
    ensures Rows(columns, values, p).1 == Rows(columns, values[1..], q).1
    ensures AllSetValues(columns, values) == SetValues(values[0], columns) + AllSetValues(columns, values[1..])
  {
    q := RowCells(columns, values[0], p).1;
    RowsUnfold(columns, values, p);
    AllSetValuesUnfold(columns, values);
    RowCellsCollector(columns, values[0], p);
    UnclaimedExtend(p, SetValues(values[0], columns));
  }

  /** On an unclaimed collector every row's present values are appended in
      order under consecutive fresh names. */
  lemma {:induction false} RowsCollector(columns: seq<string>, values: seq<Row>, p: Collector)
    requires Unclaimed(p)
    ensures Rows(columns, values, p).1 == p + Bindings(|p|, AllSetValues(columns, values))
    decreases |values|
  {
    if |values| == 0 {
      assert p + Bindings(|p|, []) == p;
    } else {
      var vs := SetValues(values[0], columns);
      var ws := AllSetValues(columns, values[1..]);
      var q := RowsStep(columns, values, p);
      assert Rows(columns, values, p).1 == q + Bindings(|q|, ws) by {
        RowsCollector(columns, values[1..], q);
      }
      assert q + Bindings(|q|, ws) == p + Bindings(|p|, vs + ws) by {
        BindingsAppend(|p|, vs, ws);
        AppendAssoc(p, Bindings(|p|, vs), Bindings(|p| + |vs|, ws));
      }
    }
  }

  /** The branch for row `i` on an unclaimed collector holding `n` entries. */
  function BranchTemplate(columns: seq<string>, values: seq<Row>, n: nat, i: nat): string
    requires i < |values|
  {
    SelectRow(RowTemplate(columns, values[i], n + |AllSetValues(columns, values[..i])|))
  }

  lemma BranchTemplateCons(columns: seq<string>, values: seq<Row>, n: nat, i: nat)
    requires 0 < i < |values|
    ensures BranchTemplate(columns, values, n, i)
         == BranchTemplate(columns, values[1..], n + |SetValues(values[0], columns)|, i - 1)
  {
    assert values[..i][1..] == values[1..][..i - 1];
    AllSetValuesUnfold(columns, values[..i]);
    assert values[1..][i - 1] == values[i];
  }

  /** The branches on an unclaimed collector holding `n` entries, row by row. */
  function Branches(columns: seq<string>, values: seq<Row>, n: nat): (bs: seq<string>)
    ensures |bs| == |values|
    decreases |values|
  {
    if |values| == 0 then []
    else [SelectRow(RowTemplate(columns, values[0], n))] + Branches(columns, values[1..], n + |SetValues(values[0], columns)|)
  }

  /** Branch i of `Branches` is the template of row i, numbered after the
      values of the rows before it. */
  lemma {:induction false} BranchesAt(columns: seq<string>, values: seq<Row>, n: nat, i: nat)
    requires i < |values|
    ensures Branches(columns, values, n)[i] == BranchTemplate(columns, values, n, i)
    decreases |values|
  {
    if 0 < i {
      BranchesAt(columns, values[1..], n + |SetValues(values[0], columns)|, i - 1);
      BranchTemplateCons(columns, values, n, i);
    } else {
      assert values[..0] == [];
    }
  }

  /** The first branch on an unclaimed collector is its row's template, and
      the rest are built on the unclaimed collector `q` it leaves. */
  lemma {:induction false} RowsBranchStep(columns: seq<string>, values: seq<Row>, p: Collector) returns (q: Collector)
    requires Unclaimed(p) && 0 < |values|
    ensures Unclaimed(q) && |q| == |p| + |SetValues(values[0], columns)|
    ensures Rows(columns, values, p).0 == [SelectRow(RowTemplate(columns, values[0], |p|))] + Rows(columns, values[1..], q).0
  {
    var first := RowCells(columns, values[0], p);
    q := first.1;
    RowsUnfold(columns, values, p);
    RowCellsTemplate(columns, values[0], p);
    RowCellsCollector(columns, values[0], p);
    UnclaimedExtend(p, SetValues(values[0], columns));
  }

  /** On an unclaimed collector the branches `Rows` emits are `Branches`. */
  lemma {:induction false} RowsBranches(columns: seq<string>, values: seq<Row>, p: Collector)
    requires Unclaimed(p)
    ensures Rows(columns, values, p).0 == Branches(columns, values, |p|)
    decreases |values|
  {
    if |values| > 0 {
      var q := RowsBranchStep(columns, values, p);
      assert Rows(columns, values[1..], q).0 == Branches(columns, values[1..], |q|) by {
        RowsBranches(columns, values[1..], q);
      }
      assert Branches(columns, values, |p|)
          == [SelectRow(RowTemplate(columns, values[0], |p|))] + Branches(columns, values[1..], |q|);
    }
  }

  /** `Rows` never drops a key. */
  lemma {:induction false} RowsKeys(columns: seq<string>, values: seq<Row>, p: Collector)
    ensures Keys(p) <= Keys(Rows(columns, values, p).1)
    decreases |values|
  {
    if |values| > 0 {
      RowsUnfold(columns, values, p);
      RowCellsBound(columns, values[0], p);
      RowsKeys(columns, values[1..], RowCells(columns, values[0], p).1);
    }
  }

  /** On any collector, branch i is built from row i's own cells, computed on
      the collector `q` the earlier rows left; the keys row i binds survive
      the later rows, so each of its present cells names a bound key. */
  lemma {:induction false} RowsAt(columns: seq<string>, values: seq<Row>, p: Collector, i: nat) returns (q: Collector)
    requires i < |values|
    ensures Rows(columns, values, p).0[i] == SelectRow(RowCells(columns, values[i], q).0)
    ensures Keys(RowCells(columns, values[i], q).1) <= Keys(Rows(columns, values, p).1)
    ensures forall j | 0 <= j < |columns| && IsSet(values[i], columns[j]) ::
      RowCells(columns, values[i], q).0[j] in Keys(Rows(columns, values, p).1)
    ensures q == Rows(columns, values[..i], p).1
    decreases i
  {
    var first := RowCells(columns, values[0], p);
    RowsUnfold(columns, values, p);
    if i == 0 {
      q := p;
      RowsKeys(columns, values[1..], first.1);
      assert values[..0] == [];
    } else {
      q := RowsAt(columns, values[1..], first.1, i - 1);
      assert values[1..][i - 1] == values[i];
      assert values[..i][1..] == values[1..][..i - 1];
      RowsUnfold(columns, values[..i], p);
    }
    RowCellsBound(columns, values[i], q);
  }

  /** The composite condition keeps every binding name it was given. */
  lemma CompositeKeys(db: Connection, operator: string, columns: seq<string>, values: seq<Row>, p: Collector)
    ensures Keys(p) <= Keys(BuildCompositeInCondition(db, operator, columns, values, p).1)
  {
    RowsKeys(columns, values, p);
  }

  /** The full predicate on an unclaimed collector, independent of the
      builder's recursion: quoted columns, the operator verbatim, and one
      templated branch per row; the collector gains exactly the present
      values, in row-then-column order, under consecutive fresh names. */
  lemma {:induction false} CompositeInUnclaimed(db: Connection, operator: string, columns: seq<string>, values: seq<Row>, p: Collector)
    requires Unclaimed(p)
    ensures var r := BuildCompositeInCondition(db, operator, columns, values, p);
      && r.0 == "(" + Join(", ", QuoteColumns(db, columns)) + ") " + operator + " ("
                + Join(" UNION ", seq(|values|, i requires 0 <= i < |values| => BranchTemplate(columns, values, |p|, i)))
                + ")"
      && r.1 == p + Bindings(|p|, AllSetValues(columns, values))
      && Unclaimed(r.1)
  {
    var branches := seq(|values|, i requires 0 <= i < |values| => BranchTemplate(columns, values, |p|, i));
    assert Rows(columns, values, p).0 == branches by {
      RowsBranches(columns, values, p);
      forall i | 0 <= i < |values|
        ensures Branches(columns, values, |p|)[i] == branches[i]
      {
        BranchesAt(columns, values, |p|, i);
      }
    }
    RowsCollector(columns, values, p);
    UnclaimedExtend(p, AllSetValues(columns, values));
  }

  /** A collector already holding the next generated name gets that entry
      overwritten, and with it the count stops growing, so two present cells
      of one row share that name and only the later value stays bound. */
  lemma {:induction false} CompositeNameReuse(a: string, b: string, row: Row, p: Collector)
    requires Fresh(p) in Keys(p)
    requires IsSet(row, a) && IsSet(row, b)
    ensures var r := RowCells([a, b], row, p);
      && r.0 == [Fresh(p), Fresh(p)]
      && |r.1| == |p|
      && Lookup(r.1, Fresh(p)) == Some(row[b])
  {
    var ph := Fresh(p);
    var cols := [a, b];
    var q := Assign(p, ph, row[a]);
    assert |q| == |p| && Fresh(q) == ph && ph in Keys(q) by {
      AssignKeys(p, ph, row[a]);
    }
    var q2 := Assign(q, ph, row[b]);
    assert |q2| == |q| && Lookup(q2, ph) == Some(row[b]) by {
      LookupAssign(q, ph, row[b], ph);
    }
    assert cols[0] == a && cols[1..] == [b] && cols[1..][0] == b && cols[1..][1..] == [];
    assert RowCells(cols[1..], row, q) == ([ph], q2) by {
      RowCellsUnfold(cols[1..], row, q);
      assert RowCells(cols[1..][1..], row, q2) == ([], q2);
      assert [ph] + [] == [ph];
    }
    RowCellsUnfold(cols, row, p);
    assert [ph] + [ph] == [ph, ph];
  }

  // ===== insert =====

  /** The column schemas `insert` consults: none when the table is not resolved. */
  function SchemaColumns(tableSchema: Option<TableSchema>): map<string, ColumnSchema> {
    if tableSchema.Some? then tableSchema.value.columns else map[]
  }

  /** The value bound for a literal: type-cast by its column's schema unless it
      is an array or the column is unknown. */
  function BoundValue(db: Connection, schemas: map<string, ColumnSchema>, name: string, v: Value): Value {
    if !v.Array? && name in schemas then db.dbTypecast(schemas[name], v) else v
  }

  /** The placeholder text for one column and the collector after it: an
      expression's own text and bindings, or the next generated name. */
  function BindColumn(db: Connection, schemas: map<string, ColumnSchema>, name: string, cv: ColumnValue, p: Collector)
    : (r: (string, Collector))
    ensures cv.Expression? ==> r.0 == cv.expression
    ensures cv.Literal? ==> r.0 == Fresh(p) && |p| <= |r.1| <= |p| + 1
    ensures cv.Expression? ==> |p| <= |r.1| <= |p| + |cv.params|
  {
    match cv
    case Expression(e, ps) => (e, Merge(p, ps))
    case Literal(v) => (Fresh(p), Assign(p, Fresh(p), BoundValue(db, schemas, name, v)))
  }

  /** What one column does to the collector: an expression copies its
      bindings (the last binding of a key wins); a literal binds its value,
      type-cast when the column is known and the value is not an array, under
      the next generated name. Every other key keeps its value. */
  lemma BindColumnLookup(db: Connection, schemas: map<string, ColumnSchema>, name: string, cv: ColumnValue, p: Collector, k: string)
    ensures var r := BindColumn(db, schemas, name, cv, p);
      && (cv.Expression? ==> Lookup(r.1, k) == (if k in Keys(cv.params) then LastLookup(cv.params, k) else Lookup(p, k)))
      && (cv.Literal? ==> Lookup(r.1, k) == (if k == Fresh(p) then Some(BoundValue(db, schemas, name, cv.value)) else Lookup(p, k)))
  {
    match cv
    case Expression(e, ps) => LookupMerge(p, ps, k);
    case Literal(v) => LookupAssign(p, Fresh(p), BoundValue(db, schemas, name, v), k);
  }

  /** The quoted names, the placeholders and the collector after binding every column in order. */
  function InsertValues(db: Connection, schemas: map<string, ColumnSchema>, columns: seq<(string, ColumnValue)>, p: Collector)
    : (r: (seq<string>, seq<string>, Collector))
    ensures |r.0| == |columns| && |r.1| == |columns|
    decreases |columns|
  {
    if |columns| == 0 then ([], [], p)
    else
      var first := BindColumn(db, schemas, columns[0].0, columns[0].1, p);
      var rest := InsertValues(db, schemas, columns[1..], first.1);
      ([db.quoteColumnName(columns[0].0)] + rest.0, [first.0] + rest.1, rest.2)
  }

  /** One quoted name and one placeholder per column, in input order; an
      expression's placeholder is its own text, on any collector. */
  lemma {:induction false} InsertValuesShape(db: Connection, schemas: map<string, ColumnSchema>, columns: seq<(string, ColumnValue)>, p: Collector)
    ensures forall i | 0 <= i < |columns| :: InsertValues(db, schemas, columns, p).0[i] == db.quoteColumnName(columns[i].0)
    ensures forall i | 0 <= i < |columns| && columns[i].1.Expression? ::
      InsertValues(db, schemas, columns, p).1[i] == columns[i].1.expression
    decreases |columns|
  {
    if |columns| > 0 {
      var r := InsertValues(db, schemas, columns, p);
      var first := BindColumn(db, schemas, columns[0].0, columns[0].1, p);
      var rest := InsertValues(db, schemas, columns[1..], first.1);
      assert r.0 == [db.quoteColumnName(columns[0].0)] + rest.0 && r.1 == [first.0] + rest.1 by {
        InsertValuesUnfold(db, schemas, columns, p);
      }
      InsertValuesShape(db, schemas, columns[1..], first.1);
      forall i | 0 < i < |columns|
        ensures r.0[i] == db.quoteColumnName(columns[i].0)
        ensures columns[i].1.Expression? ==> r.1[i] == columns[i].1.expression
      {
        assert columns[1..][i - 1] == columns[i];
        assert r.0[i] == rest.0[i - 1] && r.1[i] == rest.1[i - 1];
      }
    }
  }

  /** On any collector, every literal column's placeholder names a bound
      parameter, and no key is dropped. */
  lemma {:induction false} InsertValuesBound(db: Connection, schemas: map<string, ColumnSchema>, columns: seq<(string, ColumnValue)>, p: Collector)
    ensures Keys(p) <= Keys(InsertValues(db, schemas, columns, p).2)
    ensures forall i | 0 <= i < |columns| && columns[i].1.Literal? ::
      InsertValues(db, schemas, columns, p).1[i] in Keys(InsertValues(db, schemas, columns, p).2)
    decreases |columns|
  {
    if |columns| > 0 {
      var r := InsertValues(db, schemas, columns, p);
      var first := BindColumn(db, schemas, columns[0].0, columns[0].1, p);
      var rest := InsertValues(db, schemas, columns[1..], first.1);
      assert r.1 == [first.0] + rest.1 && r.2 == rest.2 by {
        InsertValuesUnfold(db, schemas, columns, p);
      }
      assert Keys(p) <= Keys(first.1) && (columns[0].1.Literal? ==> first.0 in Keys(first.1)) by {
        match columns[0].1
        case Expression(e, ps) => MergeKeys(p, ps);
        case Literal(v) => AssignKeys(p, Fresh(p), BoundValue(db, schemas, columns[0].0, v));
      }
      InsertValuesBound(db, schemas, columns[1..], first.1);
      forall i | 0 < i < |columns| && columns[i].1.Literal?
        ensures r.1[i] in Keys(r.2)
      {
        assert columns[1..][i - 1] == columns[i];
        assert r.1[i] == rest.1[i - 1];
      }
    }
  }

  /** `array_fill(0, n, 'DEFAULT')`. */
  function Defaults(n: nat): (d: seq<string>)
    ensures |d| == n
    ensures forall i | 0 <= i < n :: d[i] == "DEFAULT"
  {
    seq(n, _ => "DEFAULT")
  }

  function InsertHead(db: Connection, table: string): string {
    "INSERT INTO " + db.quoteTableName(table)
  }

  /** `insert($table, $columns, $params)`. `tableSchema` is what the schema
      lookup returned for `table`; an unresolved table is not an error. */
  function Insert(db: Connection, table: string, tableSchema: Option<TableSchema>, columns: seq<(string, ColumnValue)>, p: Collector)
    : (r: (string, Collector))
    ensures StartsWith(r.0, InsertHead(db, table) + " (") <==> |columns| > 0
    ensures |columns| == 0 ==>
      && r.0 == InsertHead(db, table) + " VALUES ("
                + Join(", ", Defaults(|SchemaColumns(tableSchema)|)) + ")"
      && r.1 == p
    ensures |columns| > 0 ==>
      var v := InsertValues(db, SchemaColumns(tableSchema), columns, p);
      && r.0 == InsertHead(db, table) + " (" + Join(", ", v.0) + ") VALUES (" + Join(", ", v.1) + ")"
      && r.1 == v.2
  {
    var schemas := SchemaColumns(tableSchema);
    var v := InsertValues(db, schemas, columns, p);
    var head := InsertHead(db, table);
    if |columns| == 0 then
      var sql := head + " VALUES (" + Join(", ", Defaults(|schemas|)) + ")";
      assert sql[|head| + 1] == 'V';
      (sql, v.2)
    else
      var tail := Join(", ", v.0) + ") VALUES (" + Join(", ", v.1) + ")";
      var sql := head + " (" + tail;
      assert sql == (head + " (") + tail;
      StartsWithConcat(head + " (", tail);
      (sql, v.2)
  }

  /** The values the literal columns bind, in column order. */
  function LiteralValues(db: Connection, schemas: map<string, ColumnSchema>, columns: seq<(string, ColumnValue)>): seq<Value>
    decreases |columns|
  {
    if |columns| == 0 then []
    else
      (if columns[0].1.Literal? then [BoundValue(db, schemas, columns[0].0, columns[0].1.value)] else [])
        + LiteralValues(db, schemas, columns[1..])
  }

  /** One step of `InsertValues`: the first column, then the rest on the updated collector. */
  lemma InsertValuesUnfold(db: Connection, schemas: map<string, ColumnSchema>, columns: seq<(string, ColumnValue)>, p: Collector)
    requires 0 < |columns|
    ensures var first := BindColumn(db, schemas, columns[0].0, columns[0].1, p);
      var rest := InsertValues(db, schemas, columns[1..], first.1);
      InsertValues(db, schemas, columns, p)
        == ([db.quoteColumnName(columns[0].0)] + rest.0, [first.0] + rest.1, rest.2)
  {
  }

  lemma LiteralValuesUnfold(db: Connection, schemas: map<string, ColumnSchema>, columns: seq<(string, ColumnValue)>)
    requires 0 < |columns| && columns[0].1.Literal?
    ensures LiteralValues(db, schemas, columns)
         == [BoundValue(db, schemas, columns[0].0, columns[0].1.value)] + LiteralValues(db, schemas, columns[1..])
  {
  }

  predicate AllLiterals(columns: seq<(string, ColumnValue)>) {
    forall i | 0 <= i < |columns| :: columns[i].1.Literal?
  }

  lemma AllLiteralsTail(columns: seq<(string, ColumnValue)>)
    requires 0 < |columns| && AllLiterals(columns)
    ensures columns[0].1.Literal? && AllLiterals(columns[1..])
  {
    assert forall i | 0 <= i < |columns[1..]| :: columns[1..][i] == columns[i + 1];
  }

  /** With literal values only and an unclaimed collector, the (possibly
      type-cast) values are appended under consecutive fresh names. */
  lemma {:induction false} InsertValuesCollector(db: Connection, schemas: map<string, ColumnSchema>, columns: seq<(string, ColumnValue)>, p: Collector)
    requires Unclaimed(p)
    requires AllLiterals(columns)
    ensures InsertValues(db, schemas, columns, p).2 == p + Bindings(|p|, LiteralValues(db, schemas, columns))
    decreases |columns|
  {
    if |columns| == 0 {
      assert p + Bindings(|p|, []) == p;
    } else {
      AllLiteralsTail(columns);
      InsertValuesUnfold(db, schemas, columns, p);
      LiteralValuesUnfold(db, schemas, columns);
      var b := BoundValue(db, schemas, columns[0].0, columns[0].1.value);
      var rest := LiteralValues(db, schemas, columns[1..]);
      UnclaimedAllocate(p, b);
      InsertValuesCollector(db, schemas, columns[1..], Assign(p, Fresh(p), b));
      BindingsCons(|p|, b, rest);
      AppendAssoc(p, [Binding(Fresh(p), b)], Bindings(|p| + 1, rest));
    }
  }

  /** One literal column on an unclaimed collector: it takes the next
      generated name, and the collector `q` it leaves has grown by one and is
      still unclaimed. */
  lemma {:induction false} InsertValuesLiteralStep(db: Connection, schemas: map<string, ColumnSchema>, columns: seq<(string, ColumnValue)>, p: Collector)
    returns (q: Collector)
    requires Unclaimed(p)
    requires 0 < |columns| && AllLiterals(columns)
    ensures AllLiterals(columns[1..])
    ensures Unclaimed(q) && |q| == |p| + 1
    ensures InsertValues(db, schemas, columns, p).1 == [Placeholder(|p|)] + InsertValues(db, schemas, columns[1..], q).1
    ensures InsertValues(db, schemas, columns, p).2 == InsertValues(db, schemas, columns[1..], q).2
    ensures Placeholders(|p|, |columns|) == [Placeholder(|p|)] + Placeholders(|q|, |columns| - 1)
  {
    AllLiteralsTail(columns);
    q := Assign(p, Fresh(p), BoundValue(db, schemas, columns[0].0, columns[0].1.value));
    InsertValuesUnfold(db, schemas, columns, p);
    UnclaimedAllocate(p, BoundValue(db, schemas, columns[0].0, columns[0].1.value));
  }

  /** With literal values only and an unclaimed collector, column i gets the
      placeholder `PARAM_PREFIX . (|p| + i)`. */
  lemma {:induction false} InsertValuesPlaceholders(db: Connection, schemas: map<string, ColumnSchema>, columns: seq<(string, ColumnValue)>, p: Collector)
    requires Unclaimed(p)
    requires AllLiterals(columns)
    ensures InsertValues(db, schemas, columns, p).1 == Placeholders(|p|, |columns|)
    decreases |columns|
  {
    if |columns| == 0 {
      assert InsertValues(db, schemas, columns, p).1 == [];
    } else {
      var q := InsertValuesLiteralStep(db, schemas, columns, p);
      InsertValuesPlaceholders(db, schemas, columns[1..], q);
    }
  }

  /** An insert of literal values into an unclaimed collector: one placeholder
      per column in input order, the collector extended by exactly the bound values. */
  lemma {:induction false} InsertLiterals(db: Connection, table: string, tableSchema: Option<TableSchema>, columns: seq<(string, ColumnValue)>, p: Collector)
    requires Unclaimed(p)
    requires |columns| > 0
    requires AllLiterals(columns)
    ensures var r := Insert(db, table, tableSchema, columns, p);
      && r.0 == InsertHead(db, table)
                + " (" + Join(", ", seq(|columns|, i requires 0 <= i < |columns| => db.quoteColumnName(columns[i].0)))
                + ") VALUES (" + Join(", ", Placeholders(|p|, |columns|)) + ")"
      && r.1 == p + Bindings(|p|, LiteralValues(db, SchemaColumns(tableSchema), columns))
      && Unclaimed(r.1)
  {
    var schemas := SchemaColumns(tableSchema);
    InsertValuesCollector(db, schemas, columns, p);
    InsertValuesPlaceholders(db, schemas, columns, p);
    UnclaimedExtend(p, LiteralValues(db, schemas, columns));
    var v := InsertValues(db, schemas, columns, p);
    assert v.0 == seq(|columns|, i requires 0 <= i < |columns| => db.quoteColumnName(columns[i].0)) by {
      InsertValuesShape(db, schemas, columns, p);
    }
  }

  /** A single expression column: its text is spliced in verbatim and each of
      its bindings (distinct keys, as in any PHP array) is copied unchanged;
      other entries of the collector keep their values. */
  lemma InsertExpression(db: Connection, table: string, tableSchema: Option<TableSchema>, name: string, e: string, ps: Collector, p: Collector)
    requires KeysDistinct(ps)
    ensures var r := Insert(db, table, tableSchema, [(name, Expression(e, ps))], p);
      && r.0 == InsertHead(db, table) + " (" + db.quoteColumnName(name) + ") VALUES (" + e + ")"
      && (forall k | k in Keys(ps) :: Lookup(r.1, k) == Lookup(ps, k))
      && (forall k | k !in Keys(ps) :: Lookup(r.1, k) == Lookup(p, k))
  {
    var columns := [(name, Expression(e, ps))];
    var schemas := SchemaColumns(tableSchema);
    InsertValuesUnfold(db, schemas, columns, p);
    assert columns[1..] == [];
    assert BindColumn(db, schemas, name, Expression(e, ps), p) == (e, Merge(p, ps));
    assert InsertValues(db, schemas, [], Merge(p, ps)) == ([], [], Merge(p, ps));
    var v := InsertValues(db, schemas, columns, p);
    assert v.0 == [db.quoteColumnName(name)];
    assert v.1 == [e];
    assert v.2 == Merge(p, ps);
    var r := Insert(db, table, tableSchema, columns, p);
    assert r.1 == Merge(p, ps);
    forall k
      ensures Lookup(r.1, k) == (if k in Keys(ps) then Lookup(ps, k) else Lookup(p, k))
    {
      LookupMerge(p, ps, k);
      if k in Keys(ps) {
        LastLookupOfDistinct(ps, k);
      }
    }
  }

  /** The expressions among `columns` bind no generated name. */
  ghost predicate NoGeneratedParams(columns: seq<(string, ColumnValue)>) {
    forall i | 0 <= i < |columns| && columns[i].1.Expression? :: NoGeneratedKeys(columns[i].1.params)
  }

  /** The first column of an insert on an unclaimed collector: a literal takes
      a name the collector did not hold and binds it; an expression keeps the
      collector unclaimed when its bindings use no generated name. */
  lemma BindColumnFresh(db: Connection, schemas: map<string, ColumnSchema>, columns: seq<(string, ColumnValue)>, p: Collector)
    returns (q: Collector)
    requires 0 < |columns|
    requires Unclaimed(p) && KeysDistinct(p) && NoGeneratedParams(columns)
    ensures q == BindColumn(db, schemas, columns[0].0, columns[0].1, p).1
    ensures Unclaimed(q) && KeysDistinct(q) && Keys(p) <= Keys(q)
    ensures columns[0].1.Literal? ==> Fresh(p) !in Keys(p) && Fresh(p) in Keys(q)
    ensures NoGeneratedParams(columns[1..])
  {
    q := BindColumn(db, schemas, columns[0].0, columns[0].1, p).1;
    match columns[0].1
    case Expression(e, ps) =>
      UnclaimedMerge(p, ps);
      MergeKeepsDistinct(p, ps);
      MergeKeys(p, ps);
    case Literal(v) =>
      var b := BoundValue(db, schemas, columns[0].0, v);
      UnclaimedAllocate(p, b);
      AssignKeepsDistinct(p, Fresh(p), b);
      AssignKeys(p, Fresh(p), b);
    forall i | 0 <= i < |columns[1..]| && columns[1..][i].1.Expression?
      ensures NoGeneratedKeys(columns[1..][i].1.params)
    {
      assert columns[1..][i] == columns[i + 1];
    }
  }

  /** On an unclaimed collector with distinct keys, for any mix of literals
      and expressions whose bindings use no generated name: no literal's
      placeholder was a key before, no two literals share a placeholder, and
      the collector keeps distinct keys and stays unclaimed. */
  lemma {:induction false} InsertValuesFresh(db: Connection, schemas: map<string, ColumnSchema>, columns: seq<(string, ColumnValue)>, p: Collector)
    requires Unclaimed(p) && KeysDistinct(p)
    requires NoGeneratedParams(columns)
    ensures var r := InsertValues(db, schemas, columns, p);
      && Unclaimed(r.2) && KeysDistinct(r.2) && Keys(p) <= Keys(r.2)
      && (forall i | 0 <= i < |columns| && columns[i].1.Literal? :: r.1[i] !in Keys(p))
      && (forall i, j | 0 <= i < j < |columns| && columns[i].1.Literal? && columns[j].1.Literal? :: r.1[i] != r.1[j])
    decreases |columns|
  {
    if |columns| > 0 {
      var r := InsertValues(db, schemas, columns, p);
      var first := BindColumn(db, schemas, columns[0].0, columns[0].1, p);
      var q := BindColumnFresh(db, schemas, columns, p);
      var rest := InsertValues(db, schemas, columns[1..], q);
      assert r.1 == [first.0] + rest.1 && r.2 == rest.2 by {
        InsertValuesUnfold(db, schemas, columns, p);
      }
      InsertValuesFresh(db, schemas, columns[1..], q);
      forall i | 0 < i < |columns|
        ensures columns[i] == columns[1..][i - 1] && r.1[i] == rest.1[i - 1]
      {
      }
      forall i, j | 0 <= i < j < |columns| && columns[i].1.Literal? && columns[j].1.Literal?
        ensures r.1[i] != r.1[j]
      {
        assert columns[j] == columns[1..][j - 1] && r.1[j] == rest.1[j - 1];
        if 0 < i {
          assert columns[i] == columns[1..][i - 1] && r.1[i] == rest.1[i - 1];
        }
      }
    }
  }

  /** An insert into an unclaimed collector with distinct keys, for any mix
      of literals and expressions whose bindings use no generated name: the
      keys stay distinct, the collector stays unclaimed, and every literal
      gets a name that neither the collector nor another literal held. */
  lemma {:induction false} InsertFreshNames(db: Connection, table: string, tableSchema: Option<TableSchema>, row: seq<(string, ColumnValue)>, p: Collector)
    requires Unclaimed(p) && KeysDistinct(p)
    requires NoGeneratedParams(row)
    ensures var r := Insert(db, table, tableSchema, row, p);
      var names := InsertValues(db, SchemaColumns(tableSchema), row, p).1;
      && KeysDistinct(r.1) && Unclaimed(r.1)
      && (forall i | 0 <= i < |row| && row[i].1.Literal? :: names[i] !in Keys(p))
      && (forall i, j | 0 <= i < j < |row| && row[i].1.Literal? && row[j].1.Literal? :: names[i] != names[j])
  {
    InsertValuesFresh(db, SchemaColumns(tableSchema), row, p);
  }

  /** Two builds sharing one collector never hand out the same name: from an
      unclaimed collector with distinct keys, a composite condition followed
      by an insert (whose expressions bind no generated name) leaves the
      collector with distinct keys, and none of the insert's literal
      placeholders was bound by the first build. */
  lemma {:induction false} SharedCollectorNoClash(db: Connection, operator: string, columns: seq<string>, values: seq<Row>,
                               table: string, tableSchema: Option<TableSchema>, row: seq<(string, ColumnValue)>, p: Collector)
    requires Unclaimed(p) && KeysDistinct(p)
    requires NoGeneratedParams(row)
    ensures var first := BuildCompositeInCondition(db, operator, columns, values, p);
      var second := Insert(db, table, tableSchema, row, first.1);
      var names := InsertValues(db, SchemaColumns(tableSchema), row, first.1).1;
      && KeysDistinct(second.1)
      && (forall i | 0 <= i < |row| && row[i].1.Literal? :: names[i] !in Keys(first.1))
  {
    var first := BuildCompositeInCondition(db, operator, columns, values, p);
    assert Unclaimed(first.1) && KeysDistinct(first.1) by {
      CompositeInUnclaimed(db, operator, columns, values, p);
      UnclaimedExtend(p, AllSetValues(columns, values));
    }
    InsertFreshNames(db, table, tableSchema, row, first.1);
  }
}

=== FILE: strings.dfy ===
/** String helpers shared by the statement builders: PHP's `implode`, PHP's
    truthiness of strings, prefix/suffix tests, and the decimal rendering of
    integers (PHP's int-to-string conversion) together with its parser. */
module Strings {
  import opened Values

  /** PHP `implode(sep, parts)`. */
  function Join(sep: string, parts: seq<string>): string
    decreases |parts|
  {
    if |parts| == 0 then ""
    else if |parts| == 1 then parts[0]
    else parts[0] + sep + Join(sep, parts[1..])
  }

  /** PHP truthiness of a string: only "" and "0" are falsy. */
  predicate IsTruthy(s: string) {
    s != "" && s != "0"
  }

  predicate StartsWith(s: string, prefix: string) {
    |prefix| <= |s| && s[..|prefix|] == prefix
  }

  predicate EndsWith(s: string, suffix: string) {
    |suffix| <= |s| && s[|s| - |suffix|..] == suffix
  }

  lemma StartsWithConcat(prefix: string, rest: string)
    ensures StartsWith(prefix + rest, prefix)
  {
    assert (prefix + rest)[..|prefix|] == prefix;
  }

  /** The text strictly between `prefix` and `suffix`, if `s` has that shape. */
  function StripAround(s: string, prefix: string, suffix: string): (r: Option<string>)
    ensures r.Some? <==> |prefix| + |suffix| <= |s| && StartsWith(s, prefix) && EndsWith(s, suffix)
    ensures r.Some? ==> s == prefix + r.value + suffix
  {
    if |prefix| + |suffix| <= |s| && StartsWith(s, prefix) && EndsWith(s, suffix) then
      var mid := s[|prefix|..|s| - |suffix|];
      assert s == s[..|prefix|] + mid + s[|s| - |suffix|..];
      Some(mid)
    else
      None
  }

  lemma StripAroundConcat(prefix: string, mid: string, suffix: string)
    ensures StripAround(prefix + mid + suffix, prefix, suffix) == Some(mid)
  {
    var s := prefix + mid + suffix;
    assert s[..|prefix|] == prefix;
    assert s[|s| - |suffix|..] == suffix;
    assert s[|prefix|..|s| - |suffix|] == mid;
  }

  // ----- Decimal digits -----

  predicate IsDigit(c: char) {
    '0' <= c <= '9'
  }

  predicate AllDigits(s: string) {
    forall i | 0 <= i < |s| :: IsDigit(s[i])
  }

  function DigitChar(d: nat): (c: char)
    requires d < 10
    ensures IsDigit(c)
  {
    ('0' as int + d) as char
  }

  function DigitValue(c: char): (d: nat)
    requires IsDigit(c)
    ensures d < 10
  {
    c as int - '0' as int
  }

  /** Decimal rendering of a natural number, most significant digit first. */
  function NatToString(n: nat): (s: string)
    ensures 1 <= |s| && AllDigits(s)
  {
    if n < 10 then [DigitChar(n)] else NatToString(n / 10) + [DigitChar(n % 10)]
  }

  /** The number a digit string denotes. */
  function DigitsValue(s: string): nat
    requires AllDigits(s)
    decreases |s|
  {
    if |s| == 0 then 0 else 10 * DigitsValue(s[..|s| - 1]) + DigitValue(s[|s| - 1])
  }

  /** Parser for non-empty digit strings; the inverse of `NatToString`. */
  function ParseNat(s: string): (r: Option<nat>)
    ensures r.Some? <==> 1 <= |s| && AllDigits(s)
  {
    if 1 <= |s| && AllDigits(s) then Some(DigitsValue(s)) else None
  }

  /** PHP's rendering of an integer in string concatenation. */
  function IntToString(i: int): (s: string)
    ensures 1 <= |s|
    ensures s[0] == '-' <==> i < 0
  {
    if i < 0 then "-" + NatToString(-i) else NatToString(i)
  }

  /** Parser for an optionally negated digit string; the inverse of `IntToString`. */
  function ParseInt(s: string): Option<int>
  {
    if 1 <= |s| && s[0] == '-' then
      match ParseNat(s[1..])
      case Some(n) => Some(-(n as int))
      case None => None
    else
      match ParseNat(s)
      case Some(n) => Some(n)
      case None => None
  }

  lemma {:induction false} ParseNatToString(n: nat)
    ensures ParseNat(NatToString(n)) == Some(n)
  {
    var s := NatToString(n);
    if n < 10 {
      assert s[..|s| - 1] == [];
    } else {
      assert s[..|s| - 1] == NatToString(n / 10);
      ParseNatToString(n / 10);
      assert DigitsValue(s) == 10 * (n / 10) + n % 10;
    }
  }

  lemma ParseIntToString(i: int)
    ensures ParseInt(IntToString(i)) == Some(i)
  {
    if i < 0 {
      assert IntToString(i)[1..] == NatToString(-i);
      ParseNatToString(-i);
    } else {
      ParseNatToString(i);
    }
  }
}

=== FILE: values.dfy ===
/** PHP values as they reach the query builder: the optional-value wrapper
    used throughout the model and the scalar/array values that end up bound
    to placeholders. */
module Values {

  /** A value that may be absent (PHP `null` where the source tests `!== null`). */
  datatype Option<+T> = None | Some(value: T)

  /** A PHP value handed to the builder. `Null` is PHP `null`, which `isset`
      treats as absent; `Array` is what `is_array` recognises. */
  datatype Value =
    | Null
    | Bool(b: bool)
    | Int(i: int)
    | Str(s: string)
    | Array(items: seq<Value>)
}
